=== FILE: README.md ===
# Lead qualification and funnel logic, in Dafny

This project models the decision logic of a marketing site's lead funnel.

- **Lead scoring.** The routine rates a submitted lead 1–5, gives it a Hot/Warm/Cold status and writes a short analysis. A classifier is tried first; a deterministic nine-factor point table is the fallback.
- **Admin dashboard list logic.** This covers the status filter with the case-insensitive search, the counters above the table, the colour tiers and the logout reset.
- **Onboarding wizard.** This covers the three-step form: the per-step field rules, the reduction of validation errors to one message per field, Next/Back, the goal toggle and the payload posted at the end.

Modules, one per file:

| file | module | models |
|---|---|---|
| `sequences.dfy` | `Sequences` | the subsequence relation used for order-preserving filters |
| `options.dfy` | `Options` | optional values |
| `js_strings.dfy` | `JsStrings` | the JavaScript string operations used: `trim`, `toLowerCase`, `includes`, `join`, `split("@")[1]`, `filter(Boolean)` |
| `leads.dfy` | `Leads` | the lead record, the four statuses, JavaScript truthiness of optional fields |
| `lead_scoring.dfy` | `LeadScoring` | `lib/scoreLead.ts` |
| `scoring_examples.dfy` | `ScoringExamples` | worked cases of the scorer |
| `dashboard.dfy` | `Dashboard` | `app/admin/page.tsx` |
| `onboarding.dfy` | `Onboarding` | `app/onboarding/page.tsx` |

Points are integer **quarter points**: 0.25 is 1, 1 point is 4. The thresholds 7 / 5 / 3.5 / 2 become 28 / 20 / 14 / 8. The largest total the code can reach is 9.25 points (37 quarter points): 3 + 2 + 1 + 1 + 0.5 + 0.5 + 0.5 + 0.5 + 0.25. The code comment at lib/scoreLead.ts:212 says "~10"; `MaximumIsReached` and the bound on `FallbackPoints` give the exact figure.

Two consequences of the code worth knowing:

- **Short existing-site answers earn nothing.** That factor pays only when more than 5 characters remain after trimming, so the answer "yes" earns nothing. `StrongInput` has budget 6000, a long description, three goals and every other field filled, but answers "yes". It totals 8.75 points (35 quarter points), still score 5, Hot; see `StrongPoints`.
- **The email domain.** It is the field between the first and the second `@` (`split("@")[1]`), not everything after the first `@`. An address with no `@` has the empty domain. The empty domain is not in the generic list, so such an address gets the 0.5 business-email credit (`AddressWithoutAtEarnsEmailCredit`).

Inputs the model cannot compute are parameters:

- `fmt: int -> string` stands for locale number formatting.
- `isEmail: string -> bool` stands for the schema library's email rule.
- `AiOutcome` stands for the classifier's reply. It is `NoClient`, `Failed` (any throw in the call or the parse), or `Replied(rawScore, proposedStatus, analysis)`.

## Model

| member | source | states |
|---|---|---|
| `LeadScoring.BudgetPoints` | lib/scoreLead.ts:124-140 | budget earns exactly 3 / 2 / 1 / 0.25 / 0 points for ≥5000 / ≥3000 / ≥1000 / >0 / otherwise, an absent amount counting as 0; never more than 3 |
| `LeadScoring.BudgetPointsMonotone` | lib/scoreLead.ts:124-140 | a larger budget never earns fewer points |
| `LeadScoring.BudgetFactor` | lib/scoreLead.ts:124-140 | exactly one budget label is pushed: a strength from 1000 up, a weakness below; "no budget specified" exactly when the amount is absent or not positive |
| `LeadScoring.MessageFactor` | lib/scoreLead.ts:142-157 | message length >200 / >100 / >50 / >0 / 0 earns 2 / 1.5 / 0.75 / 0.25 / 0; a strength above 100 characters, a weakness at 50 or fewer, "no project description" only when it is missing or empty |
| `LeadScoring.GoalsFactor` | lib/scoreLead.ts:159-170 | ≥3 / 2 / 1 / 0 goals earn 1 / 0.5 / 0.25 / 0; a strength from 3 goals, "no goals specified" exactly when there are none |
| `LeadScoring.SubstantialIsTrimmedLength` | lib/scoreLead.ts:173 | the `x && x.trim().length > n` test is exactly "trimmed length above n" (truthiness adds nothing) |
| `LeadScoring.ReferencesFactor` | lib/scoreLead.ts:172-176 | 1 point and a strength exactly when more than 5 characters remain after trimming; never a weakness |
| `LeadScoring.BrandToneFactor` | lib/scoreLead.ts:178-181 | 0.5 points exactly when more than 3 characters remain after trimming; no label |
| `LeadScoring.AudienceFactor` | lib/scoreLead.ts:183-189 | 0.5 points and a strength above 10 trimmed characters; the weakness only when the audience is absent or empty, so short non-empty text gets neither |
| `LeadScoring.ExistingSiteFactor` | lib/scoreLead.ts:191-194 | 0.5 points exactly when more than 5 characters remain after trimming; no label |
| `LeadScoring.EmailDomain` | lib/scoreLead.ts:197 | the domain never contains `@` and is empty when the address has no `@` |
| `LeadScoring.EmailFactor` | lib/scoreLead.ts:196-204 | 0.5 points and "business email" exactly when the lower-cased domain is not one of the seven generic domains, otherwise "generic email provider" |
| `LeadScoring.ContactFactor` | lib/scoreLead.ts:206-209 | 0.25 points exactly when a contact method is given; no label |
| `LeadScoring.FallbackPoints` | lib/scoreLead.ts:119-209 | the point total never exceeds 9.25 (37 quarter points) |
| `LeadScoring.ScoreForPoints` | lib/scoreLead.ts:216-231 | score is in [1,5]: 5 iff points ≥ 7, 4 iff 5 ≤ points < 7, 3 iff 3.5 ≤ points < 5, 2 iff 2 ≤ points < 3.5, 1 below 2 |
| `LeadScoring.StatusForPoints` | lib/scoreLead.ts:216-231 | the status the fallback sets in each branch is the status tier of the score it sets |
| `LeadScoring.ScoreForPointsMonotone` | lib/scoreLead.ts:216-231 | more points never give a lower score |
| `LeadScoring.StatusOf` | lib/scoreLead.ts:99-103 | Hot iff score ≥ 4, Warm iff score = 3, Cold iff score ≤ 2, never Unscored |
| `LeadScoring.Verdict` | lib/scoreLead.ts:241-250 | the verdict sentence for a score tier is never empty |
| `LeadScoring.Clause` | lib/scoreLead.ts:234-239 | a "Strengths:" or "Weaknesses:" clause is empty exactly when its label list is empty |
| `LeadScoring.NonEmptyOfThree` | lib/scoreLead.ts:252 | `filter(Boolean)` on verdict and the two clauses keeps the verdict and each clause only when it is non-empty |
| `LeadScoring.JoinTwo` | lib/scoreLead.ts:252 | joining two parts puts exactly one separator between them |
| `LeadScoring.JoinThree` | lib/scoreLead.ts:252 | joining three parts puts exactly one separator between each pair of neighbours |
| `LeadScoring.JoinNonEmptyOfThree` | lib/scoreLead.ts:252 | the filtered parts, joined by single spaces, are the verdict followed by each non-empty part after one space |
| `LeadScoring.ClauseTail` | lib/scoreLead.ts:234-239 | a space plus a clause, or nothing, is the space-prefixed clause used in the layout |
| `LeadScoring.AnalysisLayout` | lib/scoreLead.ts:234-252 | the analysis is the verdict, then " Strengths: a, b." only when there are strengths, then " Weaknesses: c." only when there are weaknesses |
| `LeadScoring.AnalysisStartsWithVerdict` | lib/scoreLead.ts:241-252 | the analysis begins with the verdict of its score and so is never empty |
| `LeadScoring.FallbackScoring` | lib/scoreLead.ts:119-255 | score in [1,5], status the tier of the score, score determined by the point total through the thresholds; the analysis is that tier's verdict, then " Strengths: …." only when there are strengths, then " Weaknesses: …." only when there are weaknesses |
| `LeadScoring.FallbackMonotoneInBudget` | lib/scoreLead.ts:124-231 | raising the budget with every other field fixed never lowers the fallback score |
| `LeadScoring.Clamp` | lib/scoreLead.ts:98 | the classifier score is forced into [1,5]: kept inside the range, 5 above it, 1 below it |
| `LeadScoring.ScoreLead` | lib/scoreLead.ts:28-113 | both paths give score in [1,5] with status from the score; no client or any failure gives exactly the fallback result; a reply gives the clamped score and its analysis, or "AI analysis completed." when that is missing or empty |
| `LeadScoring.ProposedStatusIgnored` | lib/scoreLead.ts:98-109 | the status the classifier proposes has no influence on the result |
| `LeadScoring.OrNotProvided` | lib/scoreLead.ts:43-51 | an optional text shows as its value when truthy and as "NOT PROVIDED" when absent or empty |
| `LeadScoring.PromptFields` | lib/scoreLead.ts:41-51 | the eleven prompt values: name and email as given, each optional field its value or "NOT PROVIDED", never blank; goals show the comma-joined list when it is non-empty and the marker otherwise; budget shows "$" and the formatted amount when the amount is non-zero and the marker when it is 0 or absent |
| `ScoringExamples.DomainOfAddress` | lib/scoreLead.ts:197 | the domain of `local@domain` (no `@` in either part) is the lower-cased domain |
| `ScoringExamples.LiteralDomain` | lib/scoreLead.ts:197 | the domain of an address whose domain has no capitals is that domain unchanged |
| `ScoringExamples.AddressWithoutAtEarnsEmailCredit` | lib/scoreLead.ts:197-201 | an address without `@` gets the 0.5 business-email credit |
| `ScoringExamples.NotGenericByInitial` | lib/scoreLead.ts:198 | a domain starting with none of the generic domains' initials is not generic |
| `ScoringExamples.BusinessAddress` | lib/scoreLead.ts:196-201 | such an address earns the email credit |
| `ScoringExamples.GmailIsGeneric` | lib/scoreLead.ts:198-204 | a gmail.com address earns no email credit |
| `ScoringExamples.YahooIsGeneric` | lib/scoreLead.ts:198-204 | a yahoo.com address earns no email credit |
| `ScoringExamples.NameAndWebmailOnly` | lib/scoreLead.ts:119-231 | name plus a gmail.com address: 0 points, score 1, Cold |
| `ScoringExamples.TextCredit` | lib/scoreLead.ts:173 | an unpadded text longer than n passes the trimmed-length test |
| `ScoringExamples.StrongReferences` | lib/scoreLead.ts:172-176 | "site.com" earns the references point |
| `ScoringExamples.StrongTone` | lib/scoreLead.ts:178-181 | "bold" earns the brand-tone half point |
| `ScoringExamples.StrongAudience` | lib/scoreLead.ts:183-186 | a 34-character audience earns the audience half point |
| `ScoringExamples.ShortSiteAnswer` | lib/scoreLead.ts:191-194 | the existing-site answer "yes" earns nothing |
| `ScoringExamples.StrongEmail` | lib/scoreLead.ts:196-201 | b@company.com earns the email credit |
| `ScoringExamples.StrongPoints` | lib/scoreLead.ts:119-209 | budget 6000, a 250-character message, three goals, references, tone, audience, "yes", a company address and a contact method total 8.75 points |
| `ScoringExamples.StrongLead` | lib/scoreLead.ts:216-231 | that lead scores 5, Hot |
| `ScoringExamples.JustBelowTwoPoints` | lib/scoreLead.ts:119-231 | budget 2000, a 60-character message and a yahoo.com address total 1.75 points, just under the 2-point threshold: score 1, Cold |
| `ScoringExamples.FullReferences` | lib/scoreLead.ts:172-176 | "apple.com" earns the references point |
| `ScoringExamples.FullTone` | lib/scoreLead.ts:178-181 | "calm" earns the brand-tone half point |
| `ScoringExamples.FullAudience` | lib/scoreLead.ts:183-186 | "local people" earns the audience half point |
| `ScoringExamples.FullSite` | lib/scoreLead.ts:191-194 | "redesign" earns the existing-site half point |
| `ScoringExamples.FullEmail` | lib/scoreLead.ts:196-201 | d@studio.io earns the email credit |
| `ScoringExamples.MaximumIsReached` | lib/scoreLead.ts:119-209 | the 9.25-point maximum is attained by an actual lead |
| `ScoringExamples.ClassifierScoresClamped` | lib/scoreLead.ts:98-108 | a classifier score of 7 becomes 5 and Hot, whatever status it proposes; 0 becomes 1 and Cold; a missing or empty analysis becomes "AI analysis completed." |
| `ScoringExamples.BarePromptIsAllMarkers` | lib/scoreLead.ts:43-51 | a lead with only name and email shows all nine optional fields as "NOT PROVIDED" |
| `ScoringExamples.FalsyValuesAreMarkers` | lib/scoreLead.ts:45-48 | an empty goal list and a zero budget show as "NOT PROVIDED" |
| `JsStrings.LeadingSpace` | lib/scoreLead.ts:173 | counts exactly the white-space run at the front |
| `JsStrings.TrailingSpace` | lib/scoreLead.ts:173 | counts exactly the white-space run at the back |
| `JsStrings.Trim` | lib/scoreLead.ts:173 | `trim()` gives the slice between the leading and trailing white-space runs; it neither starts nor ends with white space and is empty iff the text is all white space |
| `JsStrings.TrimIdempotent` | lib/scoreLead.ts:173 | trimming twice equals trimming once |
| `JsStrings.TrimUnpadded` | lib/scoreLead.ts:173 | a text without outer white space is its own trimmed form |
| `JsStrings.Lower` | app/admin/page.tsx:177 | `toLowerCase()` keeps the length and lower-cases character by character |
| `JsStrings.LowerWithoutCapitals` | lib/scoreLead.ts:197 | a text without capitals is its own lower-case form |
| `JsStrings.Includes` | app/admin/page.tsx:177-179 | `includes(q)` holds exactly when q occurs at some position |
| `JsStrings.IncludesEmpty` | app/admin/page.tsx:176 | the empty query is included in every text |
| `JsStrings.Join` | lib/scoreLead.ts:235 | a join starts with its first part and is that part alone when there is one |
| `JsStrings.JoinConcat` | lib/scoreLead.ts:235 | joining two non-empty lists back to back is their two joins with one separator between them |
| `JsStrings.JoinSnoc` | lib/scoreLead.ts:235 | the join loop's step: appending a part adds one separator and then that part |
| `JsStrings.PartInJoin` | lib/scoreLead.ts:45 | every part occurs in the join, so every triggered label appears in its clause and every goal in the prompt |
| `JsStrings.NonEmptyParts` | lib/scoreLead.ts:252 | `filter(Boolean)` keeps exactly the non-empty parts, in their order and with their number of copies |
| `JsStrings.Before` | lib/scoreLead.ts:197 | the text before the first separator is a prefix free of it, followed by the separator when shorter than the text |
| `JsStrings.SecondField` | lib/scoreLead.ts:197 | `split(c)[1]` is absent exactly when c does not occur, and never contains c |
| `JsStrings.BeforePrefix` | lib/scoreLead.ts:197 | the text before the first separator of `local + c + rest` is `local` |
| `JsStrings.SecondFieldOfSplit` | lib/scoreLead.ts:197 | the second field of `local + c + rest` is `rest` up to its own first c |
| `Dashboard.FilteredLeads` | app/admin/page.tsx:173-181 | the shown leads are an order-preserving subsequence of the leads; each one passes filter and search; each passing lead keeps its multiplicity, each failing one is dropped |
| `Dashboard.NoFilterShowsAll` | app/admin/page.tsx:174-176 | with filter "All" and an empty search the list is unchanged |
| `Dashboard.FilterByStatus` | app/admin/page.tsx:174 | with a status filter every shown lead has exactly that status |
| `Dashboard.SearchMeaning` | app/admin/page.tsx:175-179 | the search matches iff the lower-cased query is a piece of the lower-cased name, email or present niche; the empty-query shortcut agrees with this |
| `Dashboard.NoNicheSearch` | app/admin/page.tsx:177-179 | a lead without a niche matches only on name or email |
| `Dashboard.CountStatus` | app/admin/page.tsx:186-188 | a status count never exceeds the number of leads |
| `Dashboard.StatusesPartition` | app/admin/page.tsx:185-188 | Hot, Warm, Cold and Unscored counts add up to the total |
| `Dashboard.CountZero` | app/admin/page.tsx:186-188 | a status count is zero iff no lead has that status |
| `Dashboard.ComputeStats` | app/admin/page.tsx:184-193 | total is the lead count; hot, warm and cold are the numbers of rows the Hot, Warm and Cold filters show; hot + warm + cold ≤ total, with equality iff no lead is Unscored; pipeline is the revenue sum |
| `Dashboard.RevenueAppend` | app/admin/page.tsx:192 | the pipeline sum (absent amounts as 0) adds up over concatenation |
| `Dashboard.CountMatchesFilter` | app/admin/page.tsx:173-188 | each status counter equals the number of rows its filter button shows with an empty search |
| `Dashboard.GetScoreColor` | app/admin/page.tsx:76-80 | red from 4 up, orange at 3, blue otherwise |
| `Dashboard.GetStatusColor` | app/admin/page.tsx:50-61 | one colour per scored status, grey for any other text |
| `Dashboard.ScoreColourAgreesWithStatus` | app/admin/page.tsx:50-80 | a score's dot has the hue of the badge of the status tier that score gets, never grey |
| `Dashboard.GreyBadgeForUnknownStatus` | app/admin/page.tsx:50-61 | the badge is grey exactly for texts other than Hot, Warm and Cold, Unscored included |
| `Dashboard.Logout` | app/admin/page.tsx:130-136 | logout leaves the dashboard unauthenticated with an empty key, no stored session key, no leads and no selection; filter, search and auth error are untouched |
| `Dashboard.LogoutClearsDashboard` | app/admin/page.tsx:130-193 | after logout the table is empty, every counter is zero, and a second logout changes nothing |
| `Onboarding.FieldErrors` | app/onboarding/page.tsx:56 | a field has messages exactly when one of its rules failed, and then at least one |
| `Onboarding.FieldErrorsFirst` | app/onboarding/page.tsx:56 | a field's first message is the message of the first rule, in schema order, that fails for that field |
| `Onboarding.FlatErrors` | app/onboarding/page.tsx:53-62 | success gives no errors; otherwise exactly the fields with a non-empty message list, each mapped to its first message |
| `Onboarding.NoErrorsIffAllHold` | app/onboarding/page.tsx:157-159 | a step is valid (no error left) iff every rule of its schema holds |
| `Onboarding.Step1Accepts` | app/onboarding/page.tsx:21-26 | step 1 passes iff name ≥ 2 characters, email valid, niche non-empty and message ≥ 10 characters |
| `Onboarding.Step2Accepts` | app/onboarding/page.tsx:28-37 | step 2 passes iff goals non-empty, audience ≥ 5, existing site ≥ 1, budget ≥ 500, references ≥ 3 and brand tone ≥ 3 |
| `Onboarding.Step3Accepts` | app/onboarding/page.tsx:39-44 | step 3 passes iff the content acknowledgement is true and a contact method is chosen |
| `Onboarding.MergeKeepsEveryField` | app/onboarding/page.tsx:184 | the posted payload holds every field of the three steps and nothing else: it splits back into them |
| `Onboarding.ValidatedLeadPoints` | app/onboarding/page.tsx:28-44 | a lead that passed all three steps earns at least 1 fallback point |
| `Onboarding.ValidatedLeadWeaknesses` | app/onboarding/page.tsx:21-44 | such a lead never gets the "no budget", "no project description", "no goals" or "no target audience" weaknesses |
| `Onboarding.Initial` | app/onboarding/page.tsx:107-132 | the wizard opens on step 1 with no errors, nothing submitted, no goals and the 5000 budget preset |
| `Onboarding.StepOkIffNoErrors` | app/onboarding/page.tsx:151-159 | the step on screen passes its schema exactly when validating it leaves no error |
| `Onboarding.Next` | app/onboarding/page.tsx:151-171 | the step stays in [1,3]; an invalid step stays put and shows an error on exactly the fields with a failing rule of that step, each with the message of its first failing rule; a valid step below 3 advances by one; a valid step 3 stays put and posts the merged payload; the forms are untouched |
| `Onboarding.Back` | app/onboarding/page.tsx:173-177 | the step becomes max(1, step − 1), so it never drops below 1 and stays in [1,3]; errors are cleared |
| `Onboarding.RemoveAll` | app/onboarding/page.tsx:211 | removing a goal drops every copy of it; the remaining goals keep their order and each keeps its number of copies |
| `Onboarding.ToggleGoal` | app/onboarding/page.tsx:207-213 | the toggled goal is present afterwards iff it was absent; an absent goal is appended at the end; for a present goal the others keep their order and number of copies |
| `Onboarding.RemoveAppended` | app/onboarding/page.tsx:210-212 | removing a just-appended absent goal restores the list |
| `Onboarding.ToggleTwiceRestores` | app/onboarding/page.tsx:210-212 | toggling an absent goal twice restores the original list |
| `Onboarding.RemoveKeepsNoDuplicates` | app/onboarding/page.tsx:211 | removal keeps a duplicate-free list duplicate-free |
| `Onboarding.ToggleKeepsNoDuplicates` | app/onboarding/page.tsx:210-212 | toggling keeps a duplicate-free goal list duplicate-free |
| `Onboarding.ToggleGoalIn` | app/onboarding/page.tsx:207-215 | the goal list is toggled and a goals error is dismissed; every other error entry, the other step-2 fields, the step, the other forms and the submission are unchanged |

## Left out

- The classifier client, its environment key, the model call, `JSON.parse` and the code-fence stripping are a foreign service and library. They are represented only by their outcome, `AiOutcome`.
- The rubric text of the prompt, including its "5+ / 7+ fields NOT PROVIDED" caps, guides the classifier and is not code behaviour. Only the field values the prompt embeds are modelled (`PromptFields`), not the surrounding wording.
- A `NaN` from `parseInt` passes through `Math.max`/`Math.min` unclamped. Scores are integers here, so this case is not represented.
- `LeadScoring.ScoreLead`: its contract assumes the classifier's score parses to an integer. A non-numeric score would give NaN, which the source does not catch.
- Amounts are integers. Fractional budgets and `NaN` amounts (which `|| 0` turns into 0) are not represented.
- Locale formatting (`toLocaleString`) of amounts in labels and in the prompt is the parameter `fmt`. Date formatting on the dashboard is left out.
- The dashboard's average score uses floating-point division and `toFixed`, so it is left out.
- Persistence and async plumbing are left out: the lead schema, the ingestion route with its fire-and-forget score update, the admin read route with its newest-first sort, and the shared-secret auth route. `FilteredLeads` takes the list in whatever order it was fetched.
- The schema library's internals are left out. The email regular expression is the parameter `isEmail`. `flatten()` is modelled only by the shape of its result (`FieldErrors`). The contact form on the home page repeats the step-1 rules and is not modelled separately.
- Browser state and effects are left out: `localStorage` pre-fill and clearing, `sessionStorage` restore on load, lead fetching, `setTimeout`, navigation, scrolling, and `fetch`. The stored admin key appears only as the `storedKey` field that logout clears.
- `JsStrings.Lower` maps only ASCII capitals. JavaScript's `toLowerCase` also lower-cases other scripts; for example, the Kelvin sign becomes `k`.
- String lengths count Unicode characters. JavaScript's `length` counts UTF-16 code units, so characters outside the Basic Multilingual Plane count twice there.
- `Onboarding.ToggleGoalIn` deletes the `goals` key from the errors. The source sets it to `undefined`, which leaves the key present but with no message.
- Rendering, animation and static content are left out: all UI components, pages other than the two above, site metadata and project data.

=== FILE: dashboard.dfy ===
/**
 * The pure list logic of the admin dashboard (app/admin/page.tsx): the
 * status filter with the search box, the counters above the table, the
 * colour tiers and the logout reset.
 */
module Dashboard {
  import opened Options
  import opened JsStrings
  import opened Leads
  import opened Sequences
  import LeadScoring

  /** A stored lead as the dashboard receives it. */
  datatype Lead = Lead(
    id: string,
    input: LeadInput,
    contentAck: Option<bool>,
    score: int,
    status: Status,
    analysis: string,
    createdAt: string)

  // ---------------------------------------------------------------- filtering

  /** The filter buttons: "All" or one status name. */
  predicate MatchesFilter(filter: string, lead: Lead) {
    filter == "All" || StatusName(lead.status) == filter
  }

  /** The search box: empty, or a case-insensitive piece of the name, email or niche. */
  predicate MatchesSearch(query: string, lead: Lead) {
    var q := Lower(query);
    || query == ""
    || Includes(Lower(lead.input.name), q)
    || Includes(Lower(lead.input.email), q)
    || (Provided(lead.input.niche) && Includes(Lower(lead.input.niche.value), q))
  }

  /** Whether a lead is shown in the table. */
  predicate Shown(filter: string, query: string, lead: Lead) {
    MatchesFilter(filter, lead) && MatchesSearch(query, lead)
  }

  /** `filteredLeads`: the shown leads, in the order they were fetched. */
  function FilteredLeads(leads: seq<Lead>, filter: string, query: string): (r: seq<Lead>)
    ensures IsSubsequence(r, leads)
    ensures forall k :: 0 <= k < |r| ==> Shown(filter, query, r[k])
    ensures forall l :: multiset(r)[l] == if Shown(filter, query, l) then multiset(leads)[l] else 0
  {
    if |leads| == 0 then []
    else
      var rest := FilteredLeads(leads[1..], filter, query);
      assert leads == [leads[0]] + leads[1..];
      if Shown(filter, query, leads[0]) then [leads[0]] + rest else rest
  }

  /** With filter "All" and an empty search every lead is shown, in order. */
  lemma {:induction false} NoFilterShowsAll(leads: seq<Lead>)
    ensures FilteredLeads(leads, "All", "") == leads
  {
    if |leads| > 0 {
      NoFilterShowsAll(leads[1..]);
    }
  }

  /** With a status filter, every shown lead has exactly that status. */
  lemma FilterByStatus(leads: seq<Lead>, s: Status, query: string)
    ensures forall k :: 0 <= k < |FilteredLeads(leads, StatusName(s), query)| ==>
      FilteredLeads(leads, StatusName(s), query)[k].status == s
  {
    forall t: Status ensures StatusName(t) == StatusName(s) ==> t == s {
      StatusNameInjective(t, s);
    }
  }

  /** `q` is a piece of `s`. */
  ghost predicate PieceOf(q: string, s: string) {
    exists k :: OccursAt(s, q, k)
  }

  /**
   * The search matches exactly when the lower-cased query is a piece of the
   * lower-cased name, email or (present) niche; the empty query is a piece of
   * every text, so its special case agrees with the general rule.
   */
  lemma SearchMeaning(query: string, lead: Lead)
    ensures MatchesSearch(query, lead) <==>
      || PieceOf(Lower(query), Lower(lead.input.name))
      || PieceOf(Lower(query), Lower(lead.input.email))
      || (lead.input.niche.Some? && PieceOf(Lower(query), Lower(lead.input.niche.value)))
  {
    if query == "" {
      assert Lower(query) == "";
      IncludesEmpty(Lower(lead.input.name));
    } else if lead.input.niche.Some? && lead.input.niche.value == "" {
      assert Lower(lead.input.niche.value) == "";
      assert !PieceOf(Lower(query), "");
    }
  }

  /** A lead without a niche is found only through its name or email. */
  lemma NoNicheSearch(query: string, lead: Lead)
    requires lead.input.niche.None? && query != ""
    ensures MatchesSearch(query, lead) <==>
      Includes(Lower(lead.input.name), Lower(query)) || Includes(Lower(lead.input.email), Lower(query))
  {
  }

  // ---------------------------------------------------------------- counters

  /** The counters above the table; the average score is not modelled. */
  datatype Stats = Stats(total: nat, hot: nat, warm: nat, cold: nat, totalRevenue: int)

  /** Number of leads with status `s`. */
  function CountStatus(leads: seq<Lead>, s: Status): (n: nat)
    ensures n <= |leads|
  {
    if |leads| == 0 then 0
    else (if leads[0].status == s then 1 else 0) + CountStatus(leads[1..], s)
  }

  /** `reduce((a, l) => a + (l.investmentAmount || 0), 0)`. */
  function Revenue(leads: seq<Lead>): int {
    if |leads| == 0 then 0
    else AmountOrZero(leads[0].input.investmentAmount) + Revenue(leads[1..])
  }

  /** Revenue adds up over concatenation, so it does not depend on how the list is split. */
  lemma {:induction false} RevenueAppend(a: seq<Lead>, b: seq<Lead>)
    ensures Revenue(a + b) == Revenue(a) + Revenue(b)
  {
    if |a| == 0 {
      assert a + b == b;
    } else {
      assert (a + b)[1..] == a[1..] + b;
      RevenueAppend(a[1..], b);
    }
  }

  /** The four statuses partition the leads. */
  lemma {:induction false} StatusesPartition(leads: seq<Lead>)
    ensures CountStatus(leads, Hot) + CountStatus(leads, Warm) + CountStatus(leads, Cold)
            + CountStatus(leads, Unscored) == |leads|
  {
    if |leads| > 0 {
      StatusesPartition(leads[1..]);
    }
  }

  /** No lead has status `s` exactly when its count is zero. */
  lemma {:induction false} CountZero(leads: seq<Lead>, s: Status)
    ensures CountStatus(leads, s) == 0 <==> forall k :: 0 <= k < |leads| ==> leads[k].status != s
  {
    if |leads| > 0 {
      CountZero(leads[1..], s);
      assert forall k :: 1 <= k < |leads| ==> leads[1..][k - 1] == leads[k];
    }
  }

  /** `stats`: total, the three scored buckets and the pipeline value. */
  function ComputeStats(leads: seq<Lead>): (st: Stats)
    ensures st.total == |leads|
    ensures st.hot + st.warm + st.cold <= st.total
    ensures st.hot + st.warm + st.cold == st.total <==> forall k :: 0 <= k < |leads| ==> leads[k].status != Unscored
    ensures st.hot == |FilteredLeads(leads, "Hot", "")|
    ensures st.warm == |FilteredLeads(leads, "Warm", "")|
    ensures st.cold == |FilteredLeads(leads, "Cold", "")|
    ensures st.totalRevenue == Revenue(leads)
  {
    StatusesPartition(leads);
    CountZero(leads, Unscored);
    CountMatchesFilter(leads, Hot);
    CountMatchesFilter(leads, Warm);
    CountMatchesFilter(leads, Cold);
    Stats(|leads|, CountStatus(leads, Hot), CountStatus(leads, Warm), CountStatus(leads, Cold), Revenue(leads))
  }

  /** A status counter equals the number of rows that status's filter shows with an empty search. */
  lemma {:induction false} CountMatchesFilter(leads: seq<Lead>, s: Status)
    ensures CountStatus(leads, s) == |FilteredLeads(leads, StatusName(s), "")|
  {
    if |leads| > 0 {
      CountMatchesFilter(leads[1..], s);
      StatusNameInjective(leads[0].status, s);
    }
  }

  // ---------------------------------------------------------------- colours

  /** The colour families the dashboard paints statuses and score dots with. */
  datatype Hue = Red | Orange | Blue | Gray

  /** Hue of a score dot: red from 4 up, orange at 3, blue otherwise. */
  function ScoreHue(score: int): Hue {
    if score >= 4 then Red else if score == 3 then Orange else Blue
  }

  /** Hue of a status badge: grey for anything but the three scored statuses. */
  function StatusHue(status: string): Hue {
    if status == "Hot" then Red
    else if status == "Warm" then Orange
    else if status == "Cold" then Blue
    else Gray
  }

  /** `getScoreColor`: red from 4 up, orange at 3, blue for everything else. */
  function GetScoreColor(score: int): (c: string)
    ensures c == "bg-red-400" <==> score >= 4
    ensures c == "bg-orange-400" <==> score == 3
    ensures c == "bg-blue-400" <==> score < 3
  {
    match ScoreHue(score)
    case Red => "bg-red-400"
    case Orange => "bg-orange-400"
    case _ => "bg-blue-400"
  }

  /** `getStatusColor`: one class per scored status, grey for any other text. */
  function GetStatusColor(status: string): (c: string)
    ensures c == "bg-red-500/15 text-red-400 border-red-500/25" <==> status == "Hot"
    ensures c == "bg-orange-500/15 text-orange-400 border-orange-500/25" <==> status == "Warm"
    ensures c == "bg-blue-500/15 text-blue-400 border-blue-500/25" <==> status == "Cold"
    ensures c == "bg-gray-500/15 text-gray-400 border-gray-500/25" <==> status !in {"Hot", "Warm", "Cold"}
  {
    match StatusHue(status)
    case Red => "bg-red-500/15 text-red-400 border-red-500/25"
    case Orange => "bg-orange-500/15 text-orange-400 border-orange-500/25"
    case Blue => "bg-blue-500/15 text-blue-400 border-blue-500/25"
    case Gray => "bg-gray-500/15 text-gray-400 border-gray-500/25"
  }

  /** A score dot has the same hue as the badge of the status that score is given. */
  lemma ScoreColourAgreesWithStatus(score: int)
    ensures ScoreHue(score) == StatusHue(StatusName(LeadScoring.StatusOf(score)))
    ensures ScoreHue(score) != Gray
  {
  }

  /** The badge is grey exactly for statuses other than Hot, Warm and Cold. */
  lemma GreyBadgeForUnknownStatus(status: string)
    ensures StatusHue(status) == Gray <==> status !in {"Hot", "Warm", "Cold"}
    ensures StatusHue(StatusName(Unscored)) == Gray
  {
  }

  // ---------------------------------------------------------------- session

  /** The dashboard's state that logout touches, plus what it leaves alone. */
  datatype AdminState = AdminState(
    authenticated: bool,
    secretKey: string,
    authError: string,
    storedKey: Option<string>,
    leads: seq<Lead>,
    filter: string,
    searchQuery: string,
    selectedLead: Option<Lead>)

  /** `handleLogout`: forget the key, the session and the leads; keep the filter and search. */
  function Logout(st: AdminState): (r: AdminState)
    ensures !r.authenticated && r.secretKey == "" && r.storedKey.None?
    ensures r.leads == [] && r.selectedLead.None?
    ensures r.filter == st.filter && r.searchQuery == st.searchQuery && r.authError == st.authError
  {
    st.(authenticated := false, secretKey := "", storedKey := None, leads := [], selectedLead := None)
  }

  /** After logout the table is empty and every counter is zero, and logging out again changes nothing. */
  lemma LogoutClearsDashboard(st: AdminState)
    ensures FilteredLeads(Logout(st).leads, st.filter, st.searchQuery) == []
    ensures ComputeStats(Logout(st).leads) == Stats(0, 0, 0, 0, 0)
    ensures Logout(Logout(st)) == Logout(st)
  {
  }
}

=== FILE: js_strings.dfy ===
/**
 * The handful of JavaScript string operations the lead funnel relies on:
 * `trim`, `toLowerCase`, `includes`, `join`, `split` and `filter(Boolean)`.
 * Strings are sequences of characters.
 */
module JsStrings {
  import opened Options
  import opened Sequences

  /** The characters `String.prototype.trim` removes: white space and line terminators. */
  predicate IsSpace(c: char) {
    var n := c as int;
    || n == 0x09 || n == 0x0A || n == 0x0B || n == 0x0C || n == 0x0D || n == 0x20
    || n == 0xA0 || n == 0x1680 || (0x2000 <= n <= 0x200A) || n == 0x2028 || n == 0x2029
    || n == 0x202F || n == 0x205F || n == 0x3000 || n == 0xFEFF
  }

  /** Number of white-space characters at the front of `s`. */
  function LeadingSpace(s: string): (n: nat)
    ensures n <= |s|
    ensures forall k :: 0 <= k < n ==> IsSpace(s[k])
    ensures n < |s| ==> !IsSpace(s[n])
  {
    if |s| == 0 || !IsSpace(s[0]) then 0 else 1 + LeadingSpace(s[1..])
  }

  /** Number of white-space characters at the back of `s`. */
  function TrailingSpace(s: string): (n: nat)
    ensures n <= |s|
    ensures forall k :: |s| - n <= k < |s| ==> IsSpace(s[k])
    ensures n < |s| ==> !IsSpace(s[|s| - 1 - n])
  {
    if |s| == 0 || !IsSpace(s[|s| - 1]) then 0 else 1 + TrailingSpace(s[..|s| - 1])
  }

  /**
   * `s.trim()`: the slice of `s` that starts at the first and ends at the last
   * non-space character; every character cut away is white space.
   */
  function Trim(s: string): (r: string)
    ensures LeadingSpace(s) + |r| <= |s|
    ensures r == [] || (!IsSpace(r[0]) && !IsSpace(r[|r| - 1]))
    ensures r == s[LeadingSpace(s)..LeadingSpace(s) + |r|]
    ensures forall k :: LeadingSpace(s) + |r| <= k < |s| ==> IsSpace(s[k])
    ensures r == [] <==> forall k :: 0 <= k < |s| ==> IsSpace(s[k])
  {
    var rest := s[LeadingSpace(s)..];
    rest[..|rest| - TrailingSpace(rest)]
  }

  /** Trimming a trimmed string changes nothing. */
  lemma TrimIdempotent(s: string)
    ensures Trim(Trim(s)) == Trim(s)
  {
    var t := Trim(s);
    if t != [] {
      assert LeadingSpace(t) == 0;
      assert TrailingSpace(t) == 0;
    }
  }

  /** `toLowerCase` on one character; only the ASCII capitals are mapped. */
  function LowerChar(c: char): char {
    if 'A' <= c <= 'Z' then (c as int + 32) as char else c
  }

  /** `s.toLowerCase()`, character by character. */
  function Lower(s: string): (r: string)
    ensures |r| == |s|
    ensures forall k :: 0 <= k < |s| ==> r[k] == LowerChar(s[k])
  {
    seq(|s|, k requires 0 <= k < |s| => LowerChar(s[k]))
  }

  /** A string without ASCII capitals is its own lower-case form. */
  lemma LowerWithoutCapitals(s: string)
    requires forall k :: 0 <= k < |s| ==> !('A' <= s[k] <= 'Z')
    ensures Lower(s) == s
  {
  }

  /** A string that neither starts nor ends with white space is its own trimmed form. */
  lemma TrimUnpadded(s: string)
    requires s != [] && !IsSpace(s[0]) && !IsSpace(s[|s| - 1])
    ensures Trim(s) == s
  {
    assert LeadingSpace(s) == 0;
    assert s[0..] == s;
    assert TrailingSpace(s) == 0;
  }

  /** `q` appears in `s` starting at position `k`. */
  predicate OccursAt(s: string, q: string, k: int) {
    0 <= k && k + |q| <= |s| && s[k..k + |q|] == q
  }

  /** `s.includes(q)`: whether `q` is a contiguous piece of `s`. */
  function Includes(s: string, q: string): (b: bool)
    ensures b <==> exists k :: OccursAt(s, q, k)
    decreases |s|
  {
    if |q| <= |s| && s[..|q|] == q then
      assert OccursAt(s, q, 0);
      true
    else if |s| == 0 then
      false
    else
      var b := Includes(s[1..], q);
      if b then
        var k :| OccursAt(s[1..], q, k);
        assert s[k + 1..k + 1 + |q|] == s[1..][k..k + |q|];
        assert OccursAt(s, q, k + 1);
        true
      else
        assert forall k :: OccursAt(s, q, k) ==> k > 0 && OccursAt(s[1..], q, k - 1) by {
          forall k | OccursAt(s, q, k)
            ensures k > 0 && OccursAt(s[1..], q, k - 1)
          {
            assert s[0..|q|] == s[..|q|];
            assert k != 0;
            assert s[1..][k - 1..k - 1 + |q|] == s[k..k + |q|];
          }
        }
        false
  }

  /** The empty string is included in every string. */
  lemma IncludesEmpty(s: string)
    ensures Includes(s, "")
  {
    assert OccursAt(s, "", 0);
  }

  /** `parts.join(sep)`. */
  function Join(parts: seq<string>, sep: string): (r: string)
    ensures |parts| > 0 ==> parts[0] <= r
    ensures |parts| == 1 ==> r == parts[0]
  {
    if |parts| == 0 then ""
    else if |parts| == 1 then parts[0]
    else parts[0] + sep + Join(parts[1..], sep)
  }

  /** Joining two non-empty lists puts one separator between their joins. */
  lemma {:induction false} JoinConcat(a: seq<string>, b: seq<string>, sep: string)
    requires |a| > 0 && |b| > 0
    ensures Join(a + b, sep) == Join(a, sep) + sep + Join(b, sep)
  {
    if |a| == 1 {
      assert (a + b)[1..] == b;
    } else {
      assert (a + b)[1..] == a[1..] + b;
      JoinConcat(a[1..], b, sep);
    }
  }

  /** The step of the join loop: one more part is appended after a separator. */
  lemma JoinSnoc(parts: seq<string>, p: string, sep: string)
    requires |parts| > 0
    ensures Join(parts + [p], sep) == Join(parts, sep) + sep + p
  {
    JoinConcat(parts, [p], sep);
  }

  /** Every part occurs in the join. */
  lemma PartInJoin(parts: seq<string>, sep: string, k: int)
    requires 0 <= k < |parts|
    ensures Includes(Join(parts, sep), parts[k])
  {
    var pre := parts[..k];
    var post := parts[k + 1..];
    var x := if k > 0 then Join(pre, sep) + sep else "";
    var y := if k + 1 < |parts| then sep + Join(post, sep) else "";
    assert parts == pre + [parts[k]] + post;
    if k > 0 {
      JoinConcat(pre, [parts[k]], sep);
    } else {
      assert pre + [parts[k]] == [parts[k]];
    }
    if k + 1 < |parts| {
      JoinConcat(pre + [parts[k]], post, sep);
    } else {
      assert parts == pre + [parts[k]];
    }
    var s := Join(parts, sep);
    assert s == x + parts[k] + y;
    assert s[|x|..|x| + |parts[k]|] == parts[k];
    assert OccursAt(s, parts[k], |x|);
  }

  /** `parts.filter(Boolean)` on strings: the non-empty parts, in order. */
  function NonEmptyParts(parts: seq<string>): (r: seq<string>)
    ensures |r| <= |parts|
    ensures forall k :: 0 <= k < |r| ==> r[k] != ""
    ensures forall x :: x in r <==> x in parts && x != ""
    ensures IsSubsequence(r, parts)
    ensures forall x :: multiset(r)[x] == if x == "" then 0 else multiset(parts)[x]
  {
    if |parts| == 0 then []
    else
      var rest := NonEmptyParts(parts[1..]);
      assert parts == [parts[0]] + parts[1..];
      if parts[0] == "" then rest else [parts[0]] + rest
  }

  /** The part of `s` before the first `c` (all of `s` when there is none). */
  function Before(s: string, c: char): (r: string)
    ensures r <= s
    ensures c !in r
    ensures |r| < |s| ==> s[|r|] == c
  {
    if |s| == 0 || s[0] == c then "" else [s[0]] + Before(s[1..], c)
  }

  /**
   * `s.split(c)[1]`: the field between the first and the second `c`, or the
   * rest of `s` when `c` occurs once; `None` when `c` does not occur at all.
   */
  function SecondField(s: string, c: char): (r: Option<string>)
    ensures r.None? <==> c !in s
    ensures r.Some? ==> c !in r.value
  {
    var head := Before(s, c);
    if |head| == |s| then
      assert s == head;
      None
    else
      Some(Before(s[|head| + 1..], c))
  }

  /** For `local@rest` with no `@` in `local`, the second field is `rest` up to its own first `@`. */
  lemma {:induction false} SecondFieldOfSplit(local: string, rest: string, c: char)
    requires c !in local
    ensures SecondField(local + [c] + rest, c) == Some(Before(rest, c))
  {
    var s := local + [c] + rest;
    BeforePrefix(local, rest, c);
    assert (local + [c] + rest)[|local| + 1..] == rest;
  }

  /** The text before the first `c` of `local + [c] + rest` is exactly `local`. */
  lemma {:induction false} BeforePrefix(local: string, rest: string, c: char)
    requires c !in local
    ensures Before(local + [c] + rest, c) == local
  {
    if |local| == 0 {
      assert (local + [c] + rest)[0] == c;
    } else {
      assert (local + [c] + rest)[1..] == local[1..] + [c] + rest;
      BeforePrefix(local[1..], rest, c);
    }
  }
}

=== FILE: lead_scoring.dfy ===
/**
 * Lead qualification: the rule-based fallback scorer and the classifier
 * path that wraps it (lib/scoreLead.ts).
 *
 * Points are counted in quarter points: one point of the rule table is 4
 * units, so 0.25 is 1 and 0.75 is 3, and all the arithmetic stays on integers.
 * The thresholds 7, 5, 3.5 and 2 become 28, 20, 14 and 8.
 *
 * Locale formatting of amounts (`toLocaleString`) is the parameter `fmt`.
 */
module LeadScoring {
  import opened Options
  import opened JsStrings
  import opened Leads

  /** What one factor adds: its points and the labels it pushes onto the two lists. */
  datatype Contribution = Contribution(points: nat, strengths: seq<string>, weaknesses: seq<string>)

  /** Outcome of a scoring call, as the ingestion handler stores it. */
  datatype ScoreResult = ScoreResult(score: int, status: Status, analysis: string)

  /** Status tier of a score: Hot for 4 and up, Warm for 3, Cold below. */
  function StatusOf(score: int): (s: Status)
    ensures s != Unscored
    ensures s == Hot <==> score >= 4
    ensures s == Warm <==> score == 3
    ensures s == Cold <==> score <= 2
  {
    if score >= 4 then Hot else if score == 3 then Warm else Cold
  }

  /** The shape every scoring outcome has, whichever path produced it. */
  predicate WellFormed(r: ScoreResult) {
    1 <= r.score <= 5 && r.status == StatusOf(r.score) && r.analysis != ""
  }

  // ---------------------------------------------------------------- factors

  /** Budget points: 3 / 2 / 1 / 0.25 / 0 for at least 5000 / 3000 / 1000 / above 0 / otherwise. */
  function BudgetPoints(amount: Option<int>): (p: nat)
    ensures p <= 12
    ensures p == 12 <==> AmountOrZero(amount) >= 5000
    ensures p == 8 <==> 3000 <= AmountOrZero(amount) < 5000
    ensures p == 4 <==> 1000 <= AmountOrZero(amount) < 3000
    ensures p == 1 <==> 0 < AmountOrZero(amount) < 1000
    ensures p == 0 <==> AmountOrZero(amount) <= 0
  {
    var budget := AmountOrZero(amount);
    if budget >= 5000 then 12
    else if budget >= 3000 then 8
    else if budget >= 1000 then 4
    else if budget > 0 then 1
    else 0
  }

  /** A larger budget never earns fewer points. */
  lemma BudgetPointsMonotone(a: Option<int>, b: Option<int>)
    requires AmountOrZero(a) <= AmountOrZero(b)
    ensures BudgetPoints(a) <= BudgetPoints(b)
  {
  }

  /** The budget factor: one label, a strength from 1000 up, a weakness below. */
  function BudgetFactor(amount: Option<int>, fmt: int -> string): (c: Contribution)
    ensures c.points == BudgetPoints(amount)
    ensures |c.strengths| + |c.weaknesses| == 1
    ensures |c.strengths| == 1 <==> AmountOrZero(amount) >= 1000
    ensures c.weaknesses == ["no budget specified"] <==> AmountOrZero(amount) <= 0
  {
    var budget := AmountOrZero(amount);
    if budget >= 5000 then Contribution(12, ["high budget ($" + fmt(budget) + ")"], [])
    else if budget >= 3000 then Contribution(8, ["solid budget ($" + fmt(budget) + ")"], [])
    else if budget >= 1000 then Contribution(4, ["moderate budget"], [])
    else if budget > 0 then
      var lowText := "low budget ($" + fmt(budget) + ")";
      assert lowText[0] == 'l';
      Contribution(1, [], [lowText])
    else Contribution(0, [], ["no budget specified"])
  }

  /** `message?.length || 0`. */
  function MessageLength(message: Option<string>): nat {
    if message.Some? then |message.value| else 0
  }

  /** Message factor: 2 / 1.5 / 0.75 / 0.25 / 0 for more than 200 / 100 / 50 / 0 characters. */
  function MessageFactor(message: Option<string>): (c: Contribution)
    ensures c.points <= 8
    ensures c.points == 8 <==> MessageLength(message) > 200
    ensures c.points == 6 <==> 100 < MessageLength(message) <= 200
    ensures c.points == 3 <==> 50 < MessageLength(message) <= 100
    ensures c.points == 1 <==> 0 < MessageLength(message) <= 50
    ensures c.points == 0 <==> MessageLength(message) == 0
    ensures |c.strengths| <= 1 && |c.weaknesses| <= 1
    ensures |c.strengths| == 1 <==> MessageLength(message) > 100
    ensures |c.weaknesses| == 1 <==> MessageLength(message) <= 50
    ensures c.weaknesses == ["no project description"] <==> MessageLength(message) == 0
  {
    var len := MessageLength(message);
    if len > 200 then Contribution(8, ["very detailed project description"], [])
    else if len > 100 then Contribution(6, ["good project description"], [])
    else if len > 50 then Contribution(3, [], [])
    else if len > 0 then Contribution(1, [], ["vague project description"])
    else Contribution(0, [], ["no project description"])
  }

  /** `goals?.length || 0`. */
  function GoalCount(goals: Option<seq<string>>): nat {
    if goals.Some? then |goals.value| else 0
  }

  /** Goals factor: 1 / 0.5 / 0.25 / 0 for at least 3 / 2 / exactly 1 / no goals. */
  function GoalsFactor(goals: Option<seq<string>>): (c: Contribution)
    ensures c.points <= 4
    ensures c.points == 4 <==> GoalCount(goals) >= 3
    ensures c.points == 2 <==> GoalCount(goals) == 2
    ensures c.points == 1 <==> GoalCount(goals) == 1
    ensures c.points == 0 <==> GoalCount(goals) == 0
    ensures |c.strengths| == 1 <==> GoalCount(goals) >= 3
    ensures c.weaknesses == ["no goals specified"] <==> GoalCount(goals) == 0
    ensures c.weaknesses == [] || c.weaknesses == ["no goals specified"]
  {
    var count := GoalCount(goals);
    if count >= 3 then Contribution(4, ["clear goals defined"], [])
    else if count >= 2 then Contribution(2, [], [])
    else if count == 1 then Contribution(1, [], [])
    else Contribution(0, [], ["no goals specified"])
  }

  /** Length of the trimmed text, zero when absent. */
  function TrimmedLength(o: Option<string>): nat {
    if o.Some? then |Trim(o.value)| else 0
  }

  /** `x && x.trim().length > n`: present and longer than `n` once trimmed. */
  predicate Substantial(o: Option<string>, n: nat) {
    Provided(o) && |Trim(o.value)| > n
  }

  /** Truthiness is implied by the length test, so `Substantial` is just a trimmed-length bound. */
  lemma SubstantialIsTrimmedLength(o: Option<string>, n: nat)
    ensures Substantial(o, n) <==> TrimmedLength(o) > n
  {
  }

  /** References factor: 1 point and a strength when more than 5 characters remain after trimming. */
  function ReferencesFactor(references: Option<string>): (c: Contribution)
    ensures c.points == 4 <==> TrimmedLength(references) > 5
    ensures c.points == 0 <==> TrimmedLength(references) <= 5
    ensures |c.strengths| == 1 <==> c.points == 4
    ensures c.weaknesses == []
  {
    if Substantial(references, 5) then Contribution(4, ["provided reference websites"], [])
    else Contribution(0, [], [])
  }

  /** Brand-tone factor: 0.5 points, no label, when more than 3 characters remain after trimming. */
  function BrandToneFactor(brandTone: Option<string>): (c: Contribution)
    ensures c.points == 2 <==> TrimmedLength(brandTone) > 3
    ensures c.points == 0 <==> TrimmedLength(brandTone) <= 3
    ensures c.strengths == [] && c.weaknesses == []
  {
    if Substantial(brandTone, 3) then Contribution(2, [], []) else Contribution(0, [], [])
  }

  /**
   * Audience factor: 0.5 points and a strength when more than 10 characters
   * remain after trimming; a weakness only when the audience is absent or empty.
   */
  function AudienceFactor(audience: Option<string>): (c: Contribution)
    ensures c.points == 2 <==> TrimmedLength(audience) > 10
    ensures c.points == 0 <==> TrimmedLength(audience) <= 10
    ensures |c.strengths| == 1 <==> c.points == 2
    ensures c.weaknesses == ["no target audience defined"] <==> !Provided(audience)
    ensures c.weaknesses == [] <==> Provided(audience)
  {
    if Substantial(audience, 10) then Contribution(2, ["defined target audience"], [])
    else if !Provided(audience) then Contribution(0, [], ["no target audience defined"])
    else Contribution(0, [], [])
  }

  /** Existing-site factor: 0.5 points, no label, when more than 5 characters remain after trimming. */
  function ExistingSiteFactor(existingSite: Option<string>): (c: Contribution)
    ensures c.points == 2 <==> TrimmedLength(existingSite) > 5
    ensures c.points == 0 <==> TrimmedLength(existingSite) <= 5
    ensures c.strengths == [] && c.weaknesses == []
  {
    if Substantial(existingSite, 5) then Contribution(2, [], []) else Contribution(0, [], [])
  }

  /** The free webmail domains that earn no email credit. */
  const GenericDomains: seq<string> :=
    ["gmail.com", "yahoo.com", "hotmail.com", "outlook.com", "aol.com", "mail.com", "icloud.com"]

  /** `email.split("@")[1]?.toLowerCase() || ""`. */
  function EmailDomain(email: string): (d: string)
    ensures '@' !in d
    ensures '@' !in email ==> d == ""
  {
    match SecondField(email, '@')
    case None => ""
    case Some(field) => Lower(field)
  }

  /** Email factor: 0.5 points and a strength unless the domain is generic webmail. */
  function EmailFactor(email: string): (c: Contribution)
    ensures c.points == 2 <==> EmailDomain(email) !in GenericDomains
    ensures c.points == 0 <==> EmailDomain(email) in GenericDomains
    ensures c.strengths == ["business email"] <==> EmailDomain(email) !in GenericDomains
    ensures c.weaknesses == ["generic email provider"] <==> EmailDomain(email) in GenericDomains
    ensures |c.strengths| + |c.weaknesses| == 1
  {
    if EmailDomain(email) !in GenericDomains then Contribution(2, ["business email"], [])
    else Contribution(0, [], ["generic email provider"])
  }

  /** Contact factor: 0.25 points, no label, when a contact method is given. */
  function ContactFactor(contactMethod: Option<string>): (c: Contribution)
    ensures c.points == 1 <==> Provided(contactMethod)
    ensures c.points == 0 <==> !Provided(contactMethod)
    ensures c.strengths == [] && c.weaknesses == []
  {
    if Provided(contactMethod) then Contribution(1, [], []) else Contribution(0, [], [])
  }

  /** The fallback's point total in quarter points: the sum of the nine factors. */
  function FallbackPoints(lead: LeadInput): (p: nat)
    ensures p <= 37
  {
    BudgetPoints(lead.investmentAmount)
    + MessageFactor(lead.message).points
    + GoalsFactor(lead.goals).points
    + ReferencesFactor(lead.references).points
    + BrandToneFactor(lead.brandTone).points
    + AudienceFactor(lead.audience).points
    + ExistingSiteFactor(lead.existingSite).points
    + EmailFactor(lead.email).points
    + ContactFactor(lead.contactMethod).points
  }

  /** The strength labels, in the order the factors push them. */
  function Strengths(lead: LeadInput, fmt: int -> string): seq<string> {
    BudgetFactor(lead.investmentAmount, fmt).strengths
    + MessageFactor(lead.message).strengths
    + GoalsFactor(lead.goals).strengths
    + ReferencesFactor(lead.references).strengths
    + AudienceFactor(lead.audience).strengths
    + EmailFactor(lead.email).strengths
  }

  /** The weakness labels, in the order the factors push them. */
  function Weaknesses(lead: LeadInput, fmt: int -> string): seq<string> {
    BudgetFactor(lead.investmentAmount, fmt).weaknesses
    + MessageFactor(lead.message).weaknesses
    + GoalsFactor(lead.goals).weaknesses
    + AudienceFactor(lead.audience).weaknesses
    + EmailFactor(lead.email).weaknesses
  }

  // ---------------------------------------------------------------- grading

  /** Score for a point total: 5 / 4 / 3 / 2 / 1 at 7 / 5 / 3.5 / 2 / below. */
  function ScoreForPoints(points: int): (score: int)
    ensures 1 <= score <= 5
    ensures score == 5 <==> points >= 28
    ensures score == 4 <==> 20 <= points < 28
    ensures score == 3 <==> 14 <= points < 20
    ensures score == 2 <==> 8 <= points < 14
    ensures score == 1 <==> points < 8
  {
    if points >= 28 then 5
    else if points >= 20 then 4
    else if points >= 14 then 3
    else if points >= 8 then 2
    else 1
  }

  /** Status the fallback assigns next to the score, branch by branch. */
  function StatusForPoints(points: int): (s: Status)
    ensures s == StatusOf(ScoreForPoints(points))
  {
    if points >= 28 then Hot
    else if points >= 20 then Hot
    else if points >= 14 then Warm
    else if points >= 8 then Cold
    else Cold
  }

  /** More points never give a lower score. */
  lemma ScoreForPointsMonotone(p: int, q: int)
    requires p <= q
    ensures ScoreForPoints(p) <= ScoreForPoints(q)
  {
  }

  // ---------------------------------------------------------------- analysis

  /** The opening sentence for a score tier. */
  function Verdict(score: int): (v: string)
    ensures v != ""
  {
    if score >= 4 then "High-value prospect showing strong buying signals."
    else if score == 3 then "Shows interest but needs nurturing before conversion."
    else if score == 2 then "Early-stage prospect with limited commitment indicators."
    else "Minimal information provided \U{2014} likely browsing or testing."
  }

  /** `title` followed by the comma-joined labels and a full stop; empty when there are no labels. */
  function Clause(title: string, labels: seq<string>): (t: string)
    ensures t == "" <==> |labels| == 0
  {
    if |labels| > 0 then title + Join(labels, ", ") + "." else ""
  }

  /** `[verdict, strengthText, weaknessText].filter(Boolean).join(" ")`. */
  function Analysis(score: int, strengths: seq<string>, weaknesses: seq<string>): string {
    Join(NonEmptyParts([Verdict(score), Clause("Strengths: ", strengths), Clause("Weaknesses: ", weaknesses)]), " ")
  }

  /** `filter(Boolean)` on the three parts when the first is never empty. */
  lemma NonEmptyOfThree(a: string, b: string, c: string)
    requires a != ""
    ensures NonEmptyParts([a, b, c])
         == [a] + (if b != "" then [b] else []) + (if c != "" then [c] else [])
  {
    var last := if c != "" then [c] else [];
    assert [c][1..] == [];
    assert NonEmptyParts([c]) == last;
    assert [b, c][1..] == [c];
    assert NonEmptyParts([b, c]) == (if b != "" then [b] else []) + last;
    assert [a, b, c][1..] == [b, c];
  }

  /** Joining two parts puts one separator between them. */
  lemma JoinTwo(a: string, b: string, sep: string)
    ensures Join([a, b], sep) == a + sep + b
  {
    assert [a, b][1..] == [b];
  }

  /** Joining three parts puts one separator between each pair of neighbours. */
  lemma JoinThree(a: string, b: string, c: string, sep: string)
    ensures Join([a, b, c], sep) == a + sep + b + sep + c
  {
    assert [a, b, c][1..] == [b, c];
    JoinTwo(b, c, sep);
  }

  /** The space-prefixed clause, or nothing when there are no labels. */
  function Tail(title: string, labels: seq<string>): string {
    if |labels| > 0 then " " + title + Join(labels, ", ") + "." else ""
  }

  /** `[v, a, b].filter(Boolean).join(" ")` when `v` is never empty. */
  lemma {:induction false} JoinNonEmptyOfThree(v: string, a: string, b: string)
    requires v != ""
    ensures Join(NonEmptyParts([v, a, b]), " ")
         == v + (if a != "" then " " + a else "") + (if b != "" then " " + b else "")
  {
    NonEmptyOfThree(v, a, b);
    if a == "" && b == "" {
      assert NonEmptyParts([v, a, b]) == [v];
    } else if a == "" {
      assert NonEmptyParts([v, a, b]) == [v, b];
      JoinTwo(v, b, " ");
    } else if b == "" {
      assert NonEmptyParts([v, a, b]) == [v, a];
      JoinTwo(v, a, " ");
    } else {
      assert NonEmptyParts([v, a, b]) == [v, a, b];
      JoinThree(v, a, b, " ");
    }
  }

  /** A space and the clause are the same as the space-prefixed tail. */
  lemma ClauseTail(title: string, labels: seq<string>)
    ensures (if Clause(title, labels) != "" then " " + Clause(title, labels) else "") == Tail(title, labels)
  {
  }

  /**
   * The analysis is the verdict, then " Strengths: ..." only when there are
   * strengths, then " Weaknesses: ..." only when there are weaknesses.
   */
  lemma AnalysisLayout(score: int, strengths: seq<string>, weaknesses: seq<string>)
    ensures Analysis(score, strengths, weaknesses)
         == Verdict(score) + Tail("Strengths: ", strengths) + Tail("Weaknesses: ", weaknesses)
  {
    JoinNonEmptyOfThree(Verdict(score), Clause("Strengths: ", strengths), Clause("Weaknesses: ", weaknesses));
    ClauseTail("Strengths: ", strengths);
    ClauseTail("Weaknesses: ", weaknesses);
  }

  /** The analysis starts with the verdict, so it is never empty. */
  lemma AnalysisStartsWithVerdict(score: int, strengths: seq<string>, weaknesses: seq<string>)
    ensures Verdict(score) <= Analysis(score, strengths, weaknesses)
    ensures Analysis(score, strengths, weaknesses) != ""
  {
    AnalysisLayout(score, strengths, weaknesses);
  }

  // ---------------------------------------------------------------- fallback

  /** `fallbackScoring`: the deterministic rule-table scorer. */
  function FallbackScoring(lead: LeadInput, fmt: int -> string): (r: ScoreResult)
    ensures WellFormed(r)
    ensures r.score == ScoreForPoints(FallbackPoints(lead))
    ensures r.analysis == Verdict(r.score) + Tail("Strengths: ", Strengths(lead, fmt))
                          + Tail("Weaknesses: ", Weaknesses(lead, fmt))
  {
    var points := FallbackPoints(lead);
    var score := ScoreForPoints(points);
    AnalysisLayout(score, Strengths(lead, fmt), Weaknesses(lead, fmt));
    ScoreResult(score, StatusForPoints(points), Analysis(score, Strengths(lead, fmt), Weaknesses(lead, fmt)))
  }

  /** Raising the budget, all else fixed, never lowers the fallback score. */
  lemma FallbackMonotoneInBudget(lead: LeadInput, amount: Option<int>, fmt: int -> string)
    requires AmountOrZero(lead.investmentAmount) <= AmountOrZero(amount)
    ensures FallbackScoring(lead, fmt).score <= FallbackScoring(lead.(investmentAmount := amount), fmt).score
  {
    BudgetPointsMonotone(lead.investmentAmount, amount);
    ScoreForPointsMonotone(FallbackPoints(lead), FallbackPoints(lead.(investmentAmount := amount)));
  }

  // ---------------------------------------------------------------- classifier path

  /**
   * What the external classifier produced: no client configured, a failure
   * anywhere in the call or the parse, or a parsed reply carrying an integer
   * score, the status it proposed and its analysis text.
   */
  datatype AiOutcome =
    | NoClient
    | Failed
    | Replied(rawScore: int, proposedStatus: Option<string>, analysis: Option<string>)

  const AiPlaceholder: string := "AI analysis completed."

  /** `Math.min(5, Math.max(1, x))`. */
  function Clamp(x: int): (r: int)
    ensures 1 <= r <= 5
    ensures 1 <= x <= 5 ==> r == x
    ensures x > 5 ==> r == 5
    ensures x < 1 ==> r == 1
  {
    var low := if x > 1 then x else 1;
    if low < 5 then low else 5
  }

  /** `scoreLead`: try the classifier, fall back to the rule table on any failure. */
  function ScoreLead(lead: LeadInput, ai: AiOutcome, fmt: int -> string): (r: ScoreResult)
    ensures WellFormed(r)
    ensures !ai.Replied? ==> r == FallbackScoring(lead, fmt)
    ensures ai.Replied? ==> r.score == Clamp(ai.rawScore)
    ensures ai.Replied? && Provided(ai.analysis) ==> r.analysis == ai.analysis.value
    ensures ai.Replied? && !Provided(ai.analysis) ==> r.analysis == AiPlaceholder
  {
    match ai
    case NoClient => FallbackScoring(lead, fmt)
    case Failed => FallbackScoring(lead, fmt)
    case Replied(raw, _, text) =>
      var score := Clamp(raw);
      var status := if score >= 4 then Hot else if score == 3 then Warm else Cold;
      ScoreResult(score, status, if Provided(text) then text.value else AiPlaceholder)
  }

  /** The status the classifier proposes has no effect on the result. */
  lemma ProposedStatusIgnored(lead: LeadInput, raw: int, s1: Option<string>, s2: Option<string>, text: Option<string>, fmt: int -> string)
    ensures ScoreLead(lead, Replied(raw, s1, text), fmt) == ScoreLead(lead, Replied(raw, s2, text), fmt)
  {
  }

  // ---------------------------------------------------------------- prompt fields

  const NotProvided: string := "NOT PROVIDED"

  /** `x || "NOT PROVIDED"` on an optional text. */
  function OrNotProvided(o: Option<string>): (t: string)
    ensures t != ""
    ensures !Provided(o) ==> t == NotProvided
    ensures Provided(o) ==> t == o.value
  {
    if Provided(o) then o.value else NotProvided
  }

  /**
   * The eleven values the prompt lists, in order: name, email, niche,
   * description, goals, audience, existing site, budget, references, brand
   * tone and contact method. Every optional one is its value when truthy and
   * the marker otherwise; an empty goal list and a zero budget are falsy.
   */
  function PromptFields(lead: LeadInput, fmt: int -> string): (r: seq<string>)
    ensures |r| == 11
    ensures r[0] == lead.name && r[1] == lead.email
    ensures forall k :: 2 <= k < 11 ==> r[k] != ""
    ensures r[2] == OrNotProvided(lead.niche) && r[3] == OrNotProvided(lead.message)
    ensures r[5] == OrNotProvided(lead.audience) && r[6] == OrNotProvided(lead.existingSite)
    ensures r[8] == OrNotProvided(lead.references) && r[9] == OrNotProvided(lead.brandTone)
    ensures r[10] == OrNotProvided(lead.contactMethod)
    ensures r[4] == NotProvided <==> lead.goals.None? || Join(lead.goals.value, ", ") in {"", NotProvided}
    ensures r[7] == NotProvided <==> AmountOrZero(lead.investmentAmount) == 0
    ensures lead.goals.Some? && Join(lead.goals.value, ", ") != "" ==> r[4] == Join(lead.goals.value, ", ")
    ensures AmountOrZero(lead.investmentAmount) != 0 ==> r[7] == "$" + fmt(AmountOrZero(lead.investmentAmount))
  {
    var goals := if lead.goals.Some? then Some(Join(lead.goals.value, ", ")) else None;
    var amount := AmountOrZero(lead.investmentAmount);
    var budget := if amount != 0 then "$" + fmt(amount) else NotProvided;
    assert amount != 0 ==> budget[0] == '$';
    [ lead.name, lead.email, OrNotProvided(lead.niche), OrNotProvided(lead.message),
      OrNotProvided(goals), OrNotProvided(lead.audience), OrNotProvided(lead.existingSite),
      budget, OrNotProvided(lead.references), OrNotProvided(lead.brandTone),
      OrNotProvided(lead.contactMethod) ]
  }
}

=== FILE: leads.dfy ===
/** The lead record shared by the scoring routine, the dashboard and the onboarding funnel. */
module Leads {
  import opened Options

  /** Qualification bucket of a stored lead; `Unscored` until scoring has finished. */
  datatype Status = Hot | Warm | Cold | Unscored

  /** The text the status is stored and compared as. */
  function StatusName(s: Status): string {
    match s
    case Hot => "Hot"
    case Warm => "Warm"
    case Cold => "Cold"
    case Unscored => "Unscored"
  }

  /** Distinct statuses have distinct names. */
  lemma StatusNameInjective(a: Status, b: Status)
    ensures StatusName(a) == StatusName(b) <==> a == b
  {
  }

  /** A submitted lead: name and email are always present, the rest may be absent. */
  datatype LeadInput = LeadInput(
    name: string,
    email: string,
    niche: Option<string>,
    message: Option<string>,
    goals: Option<seq<string>>,
    audience: Option<string>,
    existingSite: Option<string>,
    investmentAmount: Option<int>,
    references: Option<string>,
    brandTone: Option<string>,
    contactMethod: Option<string>)

  /** JavaScript truthiness of an optional text: present and not empty. */
  predicate Provided(o: Option<string>) {
    o.Some? && o.value != ""
  }

  /** `amount || 0`: an absent or zero amount reads as zero. */
  function AmountOrZero(o: Option<int>): int {
    o.GetOr(0)
  }
}

=== FILE: onboarding.dfy ===
/**
 * The three-step onboarding wizard (app/onboarding/page.tsx): the field
 * rules of each step, how validation errors are reduced to one message per
 * field, the step counter with Next and Back, the goal toggle and the
 * payload sent on the final step.
 *
 * The email-format rule of the schema library is the parameter `isEmail`.
 */
module Onboarding {
  import opened Options
  import opened Leads
  import opened Sequences
  import LeadScoring

  datatype Step1Data = Step1Data(name: string, email: string, niche: string, message: string)

  datatype Step2Data = Step2Data(
    goals: seq<string>,
    audience: string,
    existingSite: string,
    investmentAmount: int,
    references: string,
    brandTone: string)

  datatype Step3Data = Step3Data(contentAck: bool, contactMethod: string)

  // ---------------------------------------------------------------- schemas

  /** One rule of a schema: the field it reports on, whether it holds, and its message. */
  datatype Check = Check(field: string, ok: bool, message: string)

  /** Outcome of `safeParse`: success, or the messages reported per field. */
  datatype ParseResult = Parsed | Rejected(fieldErrors: map<string, seq<string>>)

  /** The per-field message lists of the failed rules, in rule order. */
  function FieldErrors(checks: seq<Check>): (fe: map<string, seq<string>>)
    ensures forall f :: f in fe <==> exists k :: 0 <= k < |checks| && checks[k].field == f && !checks[k].ok
    ensures forall f :: f in fe ==> |fe[f]| > 0
  {
    if |checks| == 0 then map[]
    else
      var init := checks[..|checks| - 1];
      var last := checks[|checks| - 1];
      var fe := FieldErrors(init);
      assert forall k :: 0 <= k < |init| ==> init[k] == checks[k];
      if last.ok then fe
      else fe[last.field := (if last.field in fe then fe[last.field] else []) + [last.message]]
  }

  /** The first rule in `checks` that fails for `field` carries `message`. */
  predicate FirstFailure(checks: seq<Check>, field: string, message: string) {
    exists k :: 0 <= k < |checks| && checks[k].field == field && !checks[k].ok && checks[k].message == message
                && forall j :: 0 <= j < k && checks[j].field == field ==> checks[j].ok
  }

  /** A field's first message comes from its first failing rule, as the rules are listed in the schema. */
  lemma {:induction false} FieldErrorsFirst(checks: seq<Check>)
    ensures forall f :: f in FieldErrors(checks) ==> FirstFailure(checks, f, FieldErrors(checks)[f][0])
  {
    if |checks| > 0 {
      var init := checks[..|checks| - 1];
      var last := checks[|checks| - 1];
      var fe := FieldErrors(init);
      FieldErrorsFirst(init);
      assert forall k :: 0 <= k < |init| ==> init[k] == checks[k];
      forall f | f in FieldErrors(checks)
        ensures FirstFailure(checks, f, FieldErrors(checks)[f][0])
      {
        if f in fe {
          assert FieldErrors(checks)[f][0] == fe[f][0];
          var k :| 0 <= k < |init| && init[k].field == f && !init[k].ok && init[k].message == fe[f][0]
                   && forall j :: 0 <= j < k && init[j].field == f ==> init[j].ok;
          assert checks[k] == init[k];
        } else {
          assert f == last.field && !last.ok;
          assert FieldErrors(checks)[f][0] == last.message;
          assert forall j :: 0 <= j < |init| && init[j].field == f ==> init[j].ok;
        }
      }
    }
  }

  /** `safeParse`: success when every rule holds. */
  function SafeParse(checks: seq<Check>): ParseResult {
    if forall k :: 0 <= k < |checks| ==> checks[k].ok then Parsed else Rejected(FieldErrors(checks))
  }

  /** `flatErrors`: nothing on success, otherwise the first message of each field that has one. */
  function FlatErrors(result: ParseResult): (errs: map<string, string>)
    ensures result.Parsed? ==> errs == map[]
    ensures result.Rejected? ==> forall f :: f in errs <==> f in result.fieldErrors && |result.fieldErrors[f]| > 0
    ensures result.Rejected? ==> forall f :: f in errs ==> errs[f] == result.fieldErrors[f][0]
  {
    match result
    case Parsed => map[]
    case Rejected(fe) => map f | f in fe && |fe[f]| > 0 :: fe[f][0]
  }

  /** A step is accepted (no error left) exactly when every rule holds. */
  lemma NoErrorsIffAllHold(checks: seq<Check>)
    ensures |FlatErrors(SafeParse(checks))| == 0 <==> forall k :: 0 <= k < |checks| ==> checks[k].ok
  {
    var errs := FlatErrors(SafeParse(checks));
    if !(forall k :: 0 <= k < |checks| ==> checks[k].ok) {
      var k :| 0 <= k < |checks| && !checks[k].ok;
      assert checks[k].field in errs;
    }
  }

  /** Step 1 rules: name of 2+ characters, a valid email, a niche, a message of 10+ characters. */
  function Step1Checks(s1: Step1Data, isEmail: string -> bool): seq<Check> {
    [ Check("name", |s1.name| >= 2, "Name must be at least 2 characters"),
      Check("email", isEmail(s1.email), "Please enter a valid email address"),
      Check("niche", |s1.niche| >= 1, "Please enter your website niche"),
      Check("message", |s1.message| >= 10, "Message must be at least 10 characters") ]
  }

  /** Step 2 rules: a goal, audience 5+, an existing-site answer, budget 500+, references 3+, tone 3+. */
  function Step2Checks(s2: Step2Data): seq<Check> {
    [ Check("goals", |s2.goals| >= 1, "Please select at least one goal"),
      Check("audience", |s2.audience| >= 5, "Please describe your target audience"),
      Check("existingSite", |s2.existingSite| >= 1, "Please select an option"),
      Check("investmentAmount", s2.investmentAmount >= 500, "Minimum budget is $500"),
      Check("references", |s2.references| >= 3, "Please provide at least 1 reference"),
      Check("brandTone", |s2.brandTone| >= 3, "Please describe your brand tone") ]
  }

  /** Step 3 rules: the content acknowledgement is ticked and a contact method is chosen. */
  function Step3Checks(s3: Step3Data): seq<Check> {
    [ Check("contentAck", s3.contentAck == true, "Please acknowledge this"),
      Check("contactMethod", |s3.contactMethod| >= 1, "Please select a contact method") ]
  }

  predicate Step1Ok(s1: Step1Data, isEmail: string -> bool) {
    |s1.name| >= 2 && isEmail(s1.email) && s1.niche != "" && |s1.message| >= 10
  }

  predicate Step2Ok(s2: Step2Data) {
    && s2.goals != []
    && |s2.audience| >= 5
    && s2.existingSite != ""
    && s2.investmentAmount >= 500
    && |s2.references| >= 3
    && |s2.brandTone| >= 3
  }

  predicate Step3Ok(s3: Step3Data) {
    s3.contentAck && s3.contactMethod != ""
  }

  /** Step 1 yields no errors exactly when its four conditions hold. */
  lemma Step1Accepts(s1: Step1Data, isEmail: string -> bool)
    ensures |FlatErrors(SafeParse(Step1Checks(s1, isEmail)))| == 0 <==> Step1Ok(s1, isEmail)
  {
    var cs := Step1Checks(s1, isEmail);
    NoErrorsIffAllHold(cs);
    assert (forall k :: 0 <= k < |cs| ==> cs[k].ok) <==> cs[0].ok && cs[1].ok && cs[2].ok && cs[3].ok;
  }

  /** Step 2 yields no errors exactly when its six conditions hold. */
  lemma Step2Accepts(s2: Step2Data)
    ensures |FlatErrors(SafeParse(Step2Checks(s2)))| == 0 <==> Step2Ok(s2)
  {
    var cs := Step2Checks(s2);
    NoErrorsIffAllHold(cs);
    assert (forall k :: 0 <= k < |cs| ==> cs[k].ok) <==> cs[0].ok && cs[1].ok && cs[2].ok && cs[3].ok && cs[4].ok && cs[5].ok;
  }

  /** Step 3 yields no errors exactly when its two conditions hold. */
  lemma Step3Accepts(s3: Step3Data)
    ensures |FlatErrors(SafeParse(Step3Checks(s3)))| == 0 <==> Step3Ok(s3)
  {
    var cs := Step3Checks(s3);
    NoErrorsIffAllHold(cs);
    assert (forall k :: 0 <= k < |cs| ==> cs[k].ok) <==> cs[0].ok && cs[1].ok;
  }

  // ---------------------------------------------------------------- payload

  /** `{ ...s1, ...s2, ...s3 }`: the body posted to the lead endpoint. */
  datatype Payload = Payload(
    name: string,
    email: string,
    niche: string,
    message: string,
    goals: seq<string>,
    audience: string,
    existingSite: string,
    investmentAmount: int,
    references: string,
    brandTone: string,
    contentAck: bool,
    contactMethod: string)

  function Merge(s1: Step1Data, s2: Step2Data, s3: Step3Data): Payload {
    Payload(s1.name, s1.email, s1.niche, s1.message,
            s2.goals, s2.audience, s2.existingSite, s2.investmentAmount, s2.references, s2.brandTone,
            s3.contentAck, s3.contactMethod)
  }

  function Part1(p: Payload): Step1Data {
    Step1Data(p.name, p.email, p.niche, p.message)
  }

  function Part2(p: Payload): Step2Data {
    Step2Data(p.goals, p.audience, p.existingSite, p.investmentAmount, p.references, p.brandTone)
  }

  function Part3(p: Payload): Step3Data {
    Step3Data(p.contentAck, p.contactMethod)
  }

  /** The payload keeps every field of the three steps, and is made of nothing else. */
  lemma MergeKeepsEveryField(s1: Step1Data, s2: Step2Data, s3: Step3Data, p: Payload)
    ensures Part1(Merge(s1, s2, s3)) == s1
    ensures Part2(Merge(s1, s2, s3)) == s2
    ensures Part3(Merge(s1, s2, s3)) == s3
    ensures Merge(Part1(p), Part2(p), Part3(p)) == p
  {
  }

  /** The lead the scoring routine receives for a posted payload. */
  function ToLeadInput(p: Payload): LeadInput {
    LeadInput(p.name, p.email, Some(p.niche), Some(p.message), Some(p.goals), Some(p.audience),
              Some(p.existingSite), Some(p.investmentAmount), Some(p.references), Some(p.brandTone),
              Some(p.contactMethod))
  }

  /** Budget, message, goals and contact method of a validated lead each pay something: at least 1 point. */
  lemma ValidatedLeadPoints(s1: Step1Data, s2: Step2Data, s3: Step3Data, isEmail: string -> bool)
    requires Step1Ok(s1, isEmail) && Step2Ok(s2) && Step3Ok(s3)
    ensures LeadScoring.FallbackPoints(ToLeadInput(Merge(s1, s2, s3))) >= 4
  {
    var lead := ToLeadInput(Merge(s1, s2, s3));
    assert LeadScoring.BudgetPoints(lead.investmentAmount) >= 1;
    assert LeadScoring.MessageFactor(lead.message).points >= 1;
    assert LeadScoring.GoalsFactor(lead.goals).points >= 1;
    assert LeadScoring.ContactFactor(lead.contactMethod).points == 1;
  }

  /**
   * A lead that passed all three steps never draws the "no budget", "no
   * description", "no goals" or "no audience" weaknesses.
   */
  lemma ValidatedLeadWeaknesses(s1: Step1Data, s2: Step2Data, s3: Step3Data, isEmail: string -> bool, fmt: int -> string)
    requires Step1Ok(s1, isEmail) && Step2Ok(s2) && Step3Ok(s3)
    ensures "no budget specified" !in LeadScoring.Weaknesses(ToLeadInput(Merge(s1, s2, s3)), fmt)
    ensures "no project description" !in LeadScoring.Weaknesses(ToLeadInput(Merge(s1, s2, s3)), fmt)
    ensures "no goals specified" !in LeadScoring.Weaknesses(ToLeadInput(Merge(s1, s2, s3)), fmt)
    ensures "no target audience defined" !in LeadScoring.Weaknesses(ToLeadInput(Merge(s1, s2, s3)), fmt)
  {
    var lead := ToLeadInput(Merge(s1, s2, s3));
    var b := LeadScoring.BudgetFactor(lead.investmentAmount, fmt);
    var m := LeadScoring.MessageFactor(lead.message);
    var g := LeadScoring.GoalsFactor(lead.goals);
    var a := LeadScoring.AudienceFactor(lead.audience);
    var e := LeadScoring.EmailFactor(lead.email);
    assert b.weaknesses == [] || b.weaknesses[0][0] == 'l';
    assert m.weaknesses == [] || m.weaknesses == ["vague project description"];
    assert g.weaknesses == [] && a.weaknesses == [];
    assert e.weaknesses == [] || e.weaknesses == ["generic email provider"];
    assert LeadScoring.Weaknesses(lead, fmt) == b.weaknesses + m.weaknesses + e.weaknesses;
  }

  // ---------------------------------------------------------------- wizard

  /** The wizard: current step, the three forms, the shown errors and the posted payload, if any. */
  datatype Wizard = Wizard(
    step: int,
    s1: Step1Data,
    s2: Step2Data,
    s3: Step3Data,
    errors: map<string, string>,
    submitted: Option<Payload>)

  const TotalSteps: int := 3

  /** The wizard as the page opens it: step 1, empty forms, a 5000 budget preset. */
  function Initial(): (w: Wizard)
    ensures w.step == 1 && w.errors == map[] && w.submitted.None?
    ensures w.s2.goals == [] && w.s2.investmentAmount == 5000
  {
    Wizard(1, Step1Data("", "", "", ""), Step2Data([], "", "", 5000, "", ""), Step3Data(false, ""), map[], None)
  }

  /** `validateStep`'s choice of rules: step 1, step 2, and step 3's for any other value. */
  function StepChecks(w: Wizard, isEmail: string -> bool): seq<Check> {
    if w.step == 1 then Step1Checks(w.s1, isEmail)
    else if w.step == 2 then Step2Checks(w.s2)
    else Step3Checks(w.s3)
  }

  /** Whether the current step's conditions hold. */
  predicate StepOk(w: Wizard, isEmail: string -> bool) {
    if w.step == 1 then Step1Ok(w.s1, isEmail)
    else if w.step == 2 then Step2Ok(w.s2)
    else Step3Ok(w.s3)
  }

  /** The current step passes exactly when validating it leaves no error. */
  lemma StepOkIffNoErrors(w: Wizard, isEmail: string -> bool)
    ensures StepOk(w, isEmail) <==> |FlatErrors(SafeParse(StepChecks(w, isEmail)))| == 0
  {
    if w.step == 1 {
      Step1Accepts(w.s1, isEmail);
    } else if w.step == 2 {
      Step2Accepts(w.s2);
    } else {
      Step3Accepts(w.s3);
    }
  }

  /** `handleNext`: stay and show errors, advance, or post the payload on the last step. */
  function Next(w: Wizard, isEmail: string -> bool): (r: Wizard)
    ensures 1 <= w.step <= TotalSteps ==> 1 <= r.step <= TotalSteps
    ensures !StepOk(w, isEmail) ==> r.step == w.step && r.submitted == w.submitted && |r.errors| > 0
    ensures !StepOk(w, isEmail) ==>
              forall f :: f in r.errors <==> exists k :: 0 <= k < |StepChecks(w, isEmail)|
                                                         && StepChecks(w, isEmail)[k].field == f && !StepChecks(w, isEmail)[k].ok
    ensures !StepOk(w, isEmail) ==> forall f :: f in r.errors ==> FirstFailure(StepChecks(w, isEmail), f, r.errors[f])
    ensures StepOk(w, isEmail) && w.step < TotalSteps ==> r.step == w.step + 1 && r.submitted == w.submitted
    ensures StepOk(w, isEmail) && w.step >= TotalSteps ==> r.step == w.step && r.submitted == Some(Merge(w.s1, w.s2, w.s3))
    ensures StepOk(w, isEmail) ==> r.errors == map[]
    ensures r.s1 == w.s1 && r.s2 == w.s2 && r.s3 == w.s3
  {
    StepOkIffNoErrors(w, isEmail);
    FieldErrorsFirst(StepChecks(w, isEmail));
    var errs := FlatErrors(SafeParse(StepChecks(w, isEmail)));
    if |errs| != 0 then w.(errors := errs)
    else if w.step < TotalSteps then w.(errors := map[], step := w.step + 1)
    else w.(errors := map[], submitted := Some(Merge(w.s1, w.s2, w.s3)))
  }

  /** `handleBack`: one step back, never below step 1, errors cleared. */
  function Back(w: Wizard): (r: Wizard)
    ensures r.step >= 1
    ensures w.step > 1 ==> r.step == w.step - 1
    ensures w.step <= 1 ==> r.step == 1
    ensures 1 <= w.step <= TotalSteps ==> 1 <= r.step <= TotalSteps
    ensures r.errors == map[] && r.s1 == w.s1 && r.s2 == w.s2 && r.s3 == w.s3 && r.submitted == w.submitted
  {
    w.(errors := map[], step := if w.step - 1 > 1 then w.step - 1 else 1)
  }

  // ---------------------------------------------------------------- goals

  /** `goals.filter((g) => g !== goal)`. */
  function RemoveAll(goals: seq<string>, goal: string): (r: seq<string>)
    ensures goal !in r
    ensures forall x :: x != goal ==> (x in r <==> x in goals)
    ensures IsSubsequence(r, goals)
    ensures forall x :: multiset(r)[x] == if x == goal then 0 else multiset(goals)[x]
    ensures |r| <= |goals|
    ensures goal !in goals ==> r == goals
  {
    if |goals| == 0 then []
    else
      var rest := RemoveAll(goals[1..], goal);
      assert goals == [goals[0]] + goals[1..];
      if goals[0] == goal then rest else [goals[0]] + rest
  }

  /** `toggleGoal`: drop every copy of `goal` if it is selected, otherwise append it. */
  function ToggleGoal(goals: seq<string>, goal: string): (r: seq<string>)
    ensures goal in r <==> goal !in goals
    ensures forall x :: x != goal ==> (x in r <==> x in goals)
    ensures goal !in goals ==> r == goals + [goal]
    ensures goal in goals ==> IsSubsequence(r, goals)
    ensures goal in goals ==> forall x :: x != goal ==> multiset(r)[x] == multiset(goals)[x]
  {
    if goal in goals then RemoveAll(goals, goal) else goals + [goal]
  }

  /** No goal is listed twice. */
  predicate NoDuplicates(goals: seq<string>) {
    forall i, j :: 0 <= i < j < |goals| ==> goals[i] != goals[j]
  }

  /** Removing a goal from `goals + [goal]` gives back `goals` when it was not there. */
  lemma {:induction false} RemoveAppended(goals: seq<string>, goal: string)
    requires goal !in goals
    ensures RemoveAll(goals + [goal], goal) == goals
  {
    if |goals| == 0 {
      assert goals + [goal] == [goal];
      assert [goal][1..] == [];
    } else {
      assert (goals + [goal])[1..] == goals[1..] + [goal];
      RemoveAppended(goals[1..], goal);
    }
  }

  /** Toggling a goal that is not selected twice restores the list. */
  lemma ToggleTwiceRestores(goals: seq<string>, goal: string)
    requires goal !in goals
    ensures ToggleGoal(ToggleGoal(goals, goal), goal) == goals
  {
    RemoveAppended(goals, goal);
  }

  /** Removing keeps a duplicate-free list duplicate-free. */
  lemma {:induction false} RemoveKeepsNoDuplicates(goals: seq<string>, goal: string)
    requires NoDuplicates(goals)
    ensures NoDuplicates(RemoveAll(goals, goal))
  {
    if |goals| > 0 {
      assert NoDuplicates(goals[1..]) by {
        forall i, j | 0 <= i < j < |goals[1..]| ensures goals[1..][i] != goals[1..][j] {
          assert goals[1..][i] == goals[i + 1] && goals[1..][j] == goals[j + 1];
        }
      }
      RemoveKeepsNoDuplicates(goals[1..], goal);
      assert goals[0] !in goals[1..] by {
        forall j | 0 <= j < |goals[1..]| ensures goals[1..][j] != goals[0] {
          assert goals[1..][j] == goals[j + 1];
        }
      }
    }
  }

  /** Toggling keeps a duplicate-free goal list duplicate-free. */
  lemma ToggleKeepsNoDuplicates(goals: seq<string>, goal: string)
    requires NoDuplicates(goals)
    ensures NoDuplicates(ToggleGoal(goals, goal))
  {
    if goal in goals {
      RemoveKeepsNoDuplicates(goals, goal);
    }
  }

  /** The goal toggle on the wizard: the list changes and a goals error is dismissed. */
  function ToggleGoalIn(w: Wizard, goal: string): (r: Wizard)
    ensures r.s2.goals == ToggleGoal(w.s2.goals, goal)
    ensures "goals" !in r.errors
    ensures forall f :: f != "goals" ==> (f in r.errors <==> f in w.errors)
    ensures r.errors == w.errors - {"goals"}
    ensures r.s2 == w.s2.(goals := r.s2.goals)
    ensures r.step == w.step && r.s1 == w.s1 && r.s3 == w.s3 && r.submitted == w.submitted
  {
    var errors := if "goals" in w.errors then w.errors - {"goals"} else w.errors;
    w.(s2 := w.s2.(goals := ToggleGoal(w.s2.goals, goal)), errors := errors)
  }
}

=== FILE: options.dfy ===
/** The optional-value wrapper used for every field a lead may leave out. */
module Options {

  datatype Option<+T> = None | Some(value: T) {

    /** The wrapped value, or `default` when there is none. */
    function GetOr(default: T): T {
      match this
      case Some(v) => v
      case None => default
    }
  }
}

=== FILE: scoring_examples.dfy ===
/** Worked cases of the scoring routine, each checked against the model. */
module ScoringExamples {
  import opened Options
  import opened JsStrings
  import opened Leads
  import opened LeadScoring

  /** A lead that filled in nothing but its name and email. */
  function Bare(name: string, email: string): LeadInput {
    LeadInput(name, email, None, None, None, None, None, None, None, None, None)
  }

  /** The domain of `local@domain`, for a domain free of `@`, is the lower-cased domain. */
  lemma {:induction false} DomainOfAddress(local: string, domain: string)
    requires '@' !in local && '@' !in domain
    ensures EmailDomain(local + "@" + domain) == Lower(domain)
  {
    SecondFieldOfSplit(local, domain, '@');
    assert local + "@" + domain == local + ['@'] + domain;
    var b := Before(domain, '@');
    assert |b| == |domain|;
  }

  /** An address without `@` has an empty domain, which is not generic: it earns the business-email credit. */
  lemma AddressWithoutAtEarnsEmailCredit(email: string)
    requires '@' !in email
    ensures EmailFactor(email).points == 2
    ensures EmailFactor(email).strengths == ["business email"]
  {
    assert "" !in GenericDomains;
  }

  /** The domain of a literal address, worked out from its local part and domain. */
  lemma {:induction false} LiteralDomain(email: string, local: string, domain: string)
    requires '@' !in local && '@' !in domain
    requires forall k :: 0 <= k < |domain| ==> !('A' <= domain[k] <= 'Z')
    requires email == local + "@" + domain
    ensures EmailDomain(email) == domain
  {
    DomainOfAddress(local, domain);
    LowerWithoutCapitals(domain);
  }

  /** A domain whose first letter starts none of the generic domains is not generic. */
  lemma NotGenericByInitial(d: string)
    requires d != [] && d[0] !in "gyhoami"
    ensures d !in GenericDomains
  {
    forall k | 0 <= k < |GenericDomains|
      ensures GenericDomains[k][0] in "gyhoami"
    {
    }
  }

  /** An address at a domain that no generic domain shares an initial with earns the credit. */
  lemma {:induction false} BusinessAddress(email: string, local: string, domain: string)
    requires '@' !in local && '@' !in domain && domain != [] && domain[0] !in "gyhoami"
    requires forall k :: 0 <= k < |domain| ==> !('A' <= domain[k] <= 'Z')
    requires email == local + "@" + domain
    ensures EmailFactor(email).points == 2
  {
    LiteralDomain(email, local, domain);
    NotGenericByInitial(domain);
  }

  /** A gmail.com address earns no email credit. */
  lemma GmailIsGeneric()
    ensures EmailFactor("a@gmail.com").points == 0
  {
    LiteralDomain("a@gmail.com", "a", "gmail.com");
    assert "gmail.com" == GenericDomains[0];
  }

  /** A yahoo.com address earns no email credit. */
  lemma YahooIsGeneric()
    ensures EmailFactor("c@yahoo.com").points == 0
  {
    LiteralDomain("c@yahoo.com", "c", "yahoo.com");
    assert "yahoo.com" == GenericDomains[1];
  }

  /** Name plus a gmail.com address: 0 points, score 1, Cold. */
  lemma NameAndWebmailOnly(fmt: int -> string)
    ensures FallbackPoints(Bare("A", "a@gmail.com")) == 0
    ensures FallbackScoring(Bare("A", "a@gmail.com"), fmt).score == 1
    ensures FallbackScoring(Bare("A", "a@gmail.com"), fmt).status == Cold
  {
    GmailIsGeneric();
  }

  /** A text with no padding that is longer than `n` passes the trimmed-length test. */
  lemma {:induction false} TextCredit(t: string, n: nat)
    requires |t| > n && !IsSpace(t[0]) && !IsSpace(t[|t| - 1])
    ensures TrimmedLength(Some(t)) > n
  {
    TrimUnpadded(t);
  }

  /** The well-described lead with a 6000 budget and a company address. */
  function StrongInput(): LeadInput {
    LeadInput("B", "b@company.com", None, Some(seq(250, _ => 'x')),
              Some(["x", "y", "z"]), Some("young adults interested in fitness"),
              Some("yes"), Some(6000), Some("site.com"), Some("bold"), Some("email"))
  }

  /** The strong lead's references, tone and audience each earn their credit. */
  lemma StrongReferences()
    ensures ReferencesFactor(Some("site.com")).points == 4
  {
    TextCredit("site.com", 5);
  }

  lemma StrongTone()
    ensures BrandToneFactor(Some("bold")).points == 2
  {
    TextCredit("bold", 3);
  }

  lemma StrongAudience()
    ensures AudienceFactor(Some("young adults interested in fitness")).points == 2
  {
    TextCredit("young adults interested in fitness", 10);
  }

  /** "yes" is too short to count as an existing-site answer. */
  lemma ShortSiteAnswer()
    ensures ExistingSiteFactor(Some("yes")).points == 0
  {
  }

  /** The email credit of the strong lead. */
  lemma StrongEmail()
    ensures EmailFactor("b@company.com").points == 2
  {
    BusinessAddress("b@company.com", "b", "company.com");
  }

  /** All factors but the existing site pay out: 35 quarter points (8.75). */
  lemma StrongPoints()
    ensures FallbackPoints(StrongInput()) == 35
  {
    StrongReferences();
    StrongTone();
    StrongAudience();
    ShortSiteAnswer();
    StrongEmail();
  }

  /** The strong lead scores 5, Hot. */
  lemma StrongLead(fmt: int -> string)
    ensures FallbackScoring(StrongInput(), fmt).score == 5
    ensures FallbackScoring(StrongInput(), fmt).status == Hot
  {
    StrongPoints();
  }

  /** A 2000 budget and a 60-character message with a webmail address total 1.75 points: score 1, Cold. */
  lemma JustBelowTwoPoints(fmt: int -> string)
    ensures var lead := Bare("C", "c@yahoo.com").(investmentAmount := Some(2000), message := Some(seq(60, _ => 'm')));
            FallbackPoints(lead) == 7
            && FallbackScoring(lead, fmt).score == 1
            && FallbackScoring(lead, fmt).status == Cold
  {
    YahooIsGeneric();
  }

  /** A lead that collects every factor's full credit. */
  function FullMarksInput(): LeadInput {
    LeadInput("D", "d@studio.io", None, Some(seq(201, _ => 'x')),
              Some(["x", "y", "z"]), Some("local people"), Some("redesign"),
              Some(5000), Some("apple.com"), Some("calm"), Some("Phone call"))
  }

  /** The full-marks lead's references, tone, audience and site answer each earn their credit. */
  lemma FullReferences()
    ensures ReferencesFactor(Some("apple.com")).points == 4
  {
    TextCredit("apple.com", 5);
  }

  lemma FullTone()
    ensures BrandToneFactor(Some("calm")).points == 2
  {
    TextCredit("calm", 3);
  }

  lemma FullAudience()
    ensures AudienceFactor(Some("local people")).points == 2
  {
    TextCredit("local people", 10);
  }

  lemma FullSite()
    ensures ExistingSiteFactor(Some("redesign")).points == 2
  {
    TextCredit("redesign", 5);
  }

  /** The email credit of the full-marks lead. */
  lemma FullEmail()
    ensures EmailFactor("d@studio.io").points == 2
  {
    BusinessAddress("d@studio.io", "d", "studio.io");
  }

  /** The most a lead can earn is 37 quarter points (9.25 points), and it is attainable. */
  lemma MaximumIsReached()
    ensures FallbackPoints(FullMarksInput()) == 37
  {
    FullReferences();
    FullTone();
    FullAudience();
    FullSite();
    FullEmail();
  }

  /** A classifier score of 7 is clamped to 5 (Hot); 0 is lifted to 1 (Cold); no text gives the placeholder. */
  lemma ClassifierScoresClamped(lead: LeadInput, fmt: int -> string)
    ensures ScoreLead(lead, Replied(7, Some("Warm"), None), fmt) == ScoreResult(5, Hot, AiPlaceholder)
    ensures ScoreLead(lead, Replied(0, None, Some("")), fmt) == ScoreResult(1, Cold, AiPlaceholder)
  {
  }

  /** Every optional field of a bare lead is shown to the classifier as the marker. */
  lemma BarePromptIsAllMarkers(name: string, email: string, fmt: int -> string)
    ensures forall k :: 2 <= k < 11 ==> PromptFields(Bare(name, email), fmt)[k] == NotProvided
  {
  }

  /** An empty goal list and a zero budget are shown as the marker too. */
  lemma FalsyValuesAreMarkers(lead: LeadInput, fmt: int -> string)
    requires lead.goals == Some([]) && lead.investmentAmount == Some(0)
    ensures PromptFields(lead, fmt)[4] == NotProvided
    ensures PromptFields(lead, fmt)[7] == NotProvided
  {
  }
}

=== FILE: sequences.dfy ===
/** Relations between sequences shared by the list operations of the pages. */
module Sequences {
  /** `a` can be obtained from `b` by deleting elements, without reordering. */
  predicate IsSubsequence<T(==)>(a: seq<T>, b: seq<T>)
    decreases |b|
  {
    if |a| == 0 then true
    else if |b| == 0 then false
    else (a[0] == b[0] && IsSubsequence(a[1..], b[1..])) || IsSubsequence(a, b[1..])
  }
}
